=== FILE: README.md ===
# inkbird2mqtt core in Dafny

inkbird2mqtt bridges Inkbird BLE temperature sensors to an MQTT broker. Three
long-running loops share the work. The discovery loop watches BlueZ scan events
and appends the address of every device named `tps` to a shared sensor
registry. Once a second, the poll loop walks that registry. For each address it
fetches the device from BlueZ and decodes a one-entry manufacturer-data map
into a `Reading`. Whenever the map was non-empty, it then removes the device,
so the next tick sees only a fresh advertisement. The sensor family is non-compliant: it puts the temperature, in
centidegrees, in the manufacturer-ID key of that map, and the battery level in
byte 5 of the value. The report loop publishes each reading as a retained
QoS-1 temperature message and, if that publish reported no error, a retained
QoS-1 battery message. The temperature goes to `<prefix>/<address with ':'
replaced by '-'>` and the battery level to `<that topic>/battery`.

The model pulls the logic out of these loops as pure functions over abstract
inputs:

- `readings.dfy` (module `Readings`): the Go integer widths involved (`byte`,
  `uint16`, `int`) and `Reading`, whose float temperature is kept as the integer
  centidegrees it is computed from.
- `discovery.dfy` (module `Discovery`): one scan event (`Step`) and the loop
  over a received stream that stops at cancellation or stream close
  (`Discover`). Each event carries the outcome of resolving its object path.
  The registry is a `seq<string>`.
- `poll.dfy` (module `Poll`): the manufacturer-data decode and one poll pass.
  Each registry entry is paired with the outcome its device lookup returned: an
  error, a nil device or nil properties, or a device with a path and a
  manufacturer-data map. The pass returns the readings sent on the channel, the
  paths passed to `RemoveDevice`, and whether it ended in a panic. The pass
  takes the registry by value and returns no registry: it never changes it.
  `RunPollPass` is the same pass as a loop, proved equal to the recursive
  definition.
- `decimal.dfy` (module `Decimal`): `strconv.FormatInt(n, 10)` and a parser
  that reads its text back.
- `topics.dfy` (module `Topics`): the address-to-topic-segment rewrite, the
  topic join, and the value and battery topics.
- `report.dfy` (module `Report`): the messages published per reading and by the
  report loop over a received stream. Each received reading carries whether the
  temperature publish reported an error.
- `scenario.dfy` (module `Scenario`): discovery, one poll pass and one publish
  composed end to end.
- `wrappers.dfy` (module `Wrappers`): `Option`.

Lookup outcomes are given per registry entry, not as one fixed address map.
BlueZ keeps changing while a pass runs: a device removed for one entry may be
missing, or advertising again, when a duplicate entry for the same address is
looked up. The code's behaviour depends only on what each lookup returned.

Two details of the poll pass are easy to misread. A manufacturer-data map with
two or more entries yields no reading, but the device is still removed
(bt.go:115, 139). A failed lookup, a nil device and an empty map cause no
removal (bt.go:95-112).

## Model

| member | source | states |
|---|---|---|
| `Discovery.Step` | bt.go:58-75 | The old registry is a prefix of the new one. A `DeviceRemoved` event, a failed path lookup, or a device not named exactly `tps` leaves the registry unchanged. A `tps` device, whatever event kind other than removal, has its address appended at the end, with no deduplication. |
| `Discovery.Discover` | bt.go:49-77 | Over any stream the registry only grows: the old registry is a prefix of the result, growing by at most one entry per signal. |
| `Discovery.DiscoverAppendsAccepted` | bt.go:49-77 | The loop's registry equals the old registry followed by the addresses of the accepted events handled before the first stop. The list keeps their order and duplicates, so the result matches an independent filter definition. |
| `Discovery.DiscoverGrowth` | bt.go:71-75 | The registry grows by exactly the number of accepted events handled, repeated addresses included. |
| `Discovery.DiscoverMembership` | bt.go:58-75 | An address is in the registry afterwards if and only if one of two things holds. Either it was there before, or a handled, non-removal event resolved to a device named `tps` with that address. |
| `Discovery.DiscoverStopsAtStop` | bt.go:50-56 | Once the loop's `select` takes the `ctx.Done()` case or sees the event channel closed, no later event reaches the registry. |
| `Poll.DecodeBattery` | bt.go:117-128 | The battery is byte 5 when the value is a variant wrapping a byte slice of at least six bytes. It is 0 for a non-variant or a variant wrapping anything else. A shorter slice panics as written, and the length-checked policy gives 0 instead. |
| `Poll.DecodePoliciesAgree` | bt.go:122-127 | On every value the code decodes without panicking, the length-checked decode gives the same battery. |
| `Poll.OnlyKey` | bt.go:115-116 | The single iteration of the `range` over a one-entry map yields that map's only key. |
| `Poll.PollSlot` | bt.go:91-139 | A failed lookup, a nil device or an empty map gives no reading and no removal. Two or more entries give no reading and one removal of the device's path. One entry `k` gives a reading with the entry's address, `k` centidegrees and the decoded battery, then that path's removal. A short byte slice gives a panic, and only under the as-written policy. |
| `Poll.PollPass` | bt.go:89-141 | A pass sends at most as many readings as it removes devices, and removes at most one device per registry entry. Every reading's address is in the registry. Only the as-written policy can panic. |
| `Poll.PollPassSplits` | bt.go:90-140 | Emission order is registry order. A pass over `r1 + r2` does the pass over `r1` first, then the pass over `r2` unless the first part panicked; readings and removals concatenate in that order. |
| `Poll.PollPassOfOneEntry` | bt.go:95-139 | Each registry entry contributes at most one reading. That reading carries the entry's address and the map's only key, and it is always followed by removal of exactly that device. There is no removal if and only if the lookup failed, found nothing, found an empty map, or panicked. |
| `Poll.LengthCheckedRefinesAsWritten` | bt.go:122-127 | The corrected pass never panics. On every pass the code completes, it produces exactly the code's readings and removals. |
| `Poll.RunPollPass` | bt.go:89-141 | The loop sends readings and removes devices in iteration order, stops at a panic, and keeps what it already did. Its effects equal the recursive pass. |
| `Poll.ShortPayloadPanics` | bt.go:126 | A one-entry map whose byte payload has three bytes panics the code's pass before anything is sent or removed. The corrected pass emits the reading with battery 0 and removes the device. |
| `Decimal.Format` | mqtt.go:102 | The battery text is non-empty. It is all digits for a non-negative value, and a minus sign followed by digits for a negative one. It is canonical: zero is `0`, and otherwise the first digit is never `0`. |
| `Decimal.DigitsRoundTrip` | mqtt.go:102 | Reading the digit string of a natural number back gives that number. |
| `Decimal.FormatRoundTrip` | mqtt.go:102 | Parsing the battery text of any integer gives that integer back. |
| `Decimal.FormatInjective` | mqtt.go:102 | Distinct battery levels get distinct payloads. |
| `Topics.DashedAddress` | mqtt.go:89 | The address segment has the address's length. Every `:` becomes `-`, every other character is unchanged, and the result contains no `:`. |
| `Topics.DashedAddressRoundTrip` | mqtt.go:98 | For an address without `-`, turning `-` back into `:` recovers the address. |
| `Topics.DashedAddressInjective` | mqtt.go:89 | Two addresses without `-` never share a topic segment. |
| `Topics.SplitJoin` | mqtt.go:87-89 | Joining one or more non-empty, `/`-free segments with `/` and splitting the result at `/` gives the segments back. |
| `Topics.Join` | mqtt.go:87-89 | Joining only empty elements gives the empty topic. Otherwise, when no element contains `/`, splitting the result at `/` gives exactly the non-empty elements, in order: empty elements are dropped. |
| `Topics.ValueTopic` | mqtt.go:86-89 | The value topic is the prefix, `/` and the dashed address. An empty prefix leaves the dashed address alone, and an empty address leaves the prefix alone. |
| `Topics.BatteryTopic` | mqtt.go:95-99 | The battery topic is the prefix, the dashed address and `battery`, separated by `/`, with an empty prefix or address dropped along with its separator. |
| `Topics.BatteryTopicExtendsValueTopic` | mqtt.go:95-99 | The battery topic is the value topic followed by `/battery`, or `battery` alone when the value topic is empty. |
| `Topics.TopicSegments` | mqtt.go:86-99 | For a plain prefix and address, the value topic has exactly the segments prefix and dashed address. The battery topic has those two plus `battery`. |
| `Report.PublishReading` | mqtt.go:86-103 | Each reading gives a retained QoS-1 temperature message on the value topic. A battery message follows on the battery topic only if the temperature publish reported no error. That topic is one `battery` segment below the temperature message's topic. The payload is the battery's canonical decimal text (no leading zero), and it parses back to the reading's battery. |
| `Report.Report` | mqtt.go:78-109 | The loop publishes at most two messages per received signal, and any non-empty output starts with a temperature message. |
| `Report.ReportCount` | mqtt.go:86-103 | Each reading taken off the channel yields at least one and at most two messages. |
| `Report.BatteryFollowsTemperature` | mqtt.go:94-103 | Every battery message directly follows a temperature message and is published one `battery` segment below that message's topic: a battery is never published first or on its own. |
| `Report.ReportStopsAtStop` | mqtt.go:80-85 | Once the loop's `select` takes the `ctx.Done()` case or sees the readings channel closed, nothing more is published, whatever was queued behind it. |
| `Report.ReportSplits` | mqtt.go:78-109 | Readings are published in channel order: the messages for a run of deliveries come before those of the signals after it. |
| `Scenario.DiscoverPollPublish` | bt.go:71-139 | A `tps` device that advertises one entry `k` with at least six payload bytes goes through the whole pipeline. It is recorded once and yields exactly one reading of `k` centidegrees and battery `bytes[5]`. That reading is followed by removal of its path and published as the temperature message, then the battery message, as mqtt.go:86-103 writes them. |
| `Scenario.SensorTopics` | mqtt.go:86-99 | Address `AA:BB:CC:DD:EE:FF` under prefix `inkbird` publishes to `inkbird/AA-BB-CC-DD-EE-FF` and `inkbird/AA-BB-CC-DD-EE-FF/battery`. |

## Left out

- Concurrency: the goroutines, the registry mutex, the one-second ticker, and blocking on the readings channel. One event or one pass is modelled at a time. The lock makes each append and each whole pass atomic, so a run is a sequence of these steps.
- The ticker loop around the pass (bt.go:84-88) is not modelled. It runs one pass per tick until the context is cancelled.
- BlueZ and D-Bus: `FlushDevices`, starting discovery and its fatal error path, `NewDevice1`, `GetDeviceByAddress` and `RemoveDevice`. Their results are inputs, and `RemoveDevice` is an emitted path. Its effect on later lookups belongs to BlueZ.
- Floating point: the temperature stays integer centidegrees. `strconv.FormatFloat(v, 'f', 2, 64)` is not modelled, and neither is the float `Value` of `Reading`.
- `Topics.Join`: `filepath.Join` also cleans its result. A prefix with `.` or `..` segments, or with repeated or trailing `/`, would be rewritten, and the model does not do that rewriting.
- The MQTT client: connecting, `net.Dial`, QoS delivery and retries. A battery publish error only reaches the log.
- Logging, and all of main.go: flags, log level, signal handling, the channel capacity of 10.

## Findings

| source | as written | input that shows it | evidently intended | confidence | as-written member | corrected member |
|---|---|---|---|---|---|---|
| bt.go:126 | `int(bytes[5])` indexes the variant's byte slice without checking its length, so the poll goroutine panics and the process exits | one-entry manufacturer data `{2500: Variant([]byte{0, 0, 42})}` | treat a short payload like the other malformed shapes: warn, battery 0, reading still emitted | high, not executed | `Poll.ShortPayloadPanics` | `Poll.LengthCheckedRefinesAsWritten` |

`Poll.PollPass`, `Poll.RunPollPass` and the lemmas `PollPassSplits` and
`PollPassOfOneEntry` take the battery policy as a parameter. Their properties therefore hold for the code
as written (`AsWritten`) and for the corrected decode (`LengthChecked`).
`LengthCheckedRefinesAsWritten` and `ShortPayloadPanics` take no policy: each
relates the two policies to each other.

=== FILE: decimal.dfy ===
/** Base-10 text of an integer, as `strconv.FormatInt(n, 10)` writes it, and
    its inverse. */
module Decimal {
  import opened Wrappers

  predicate IsDigit(c: char)
  {
    '0' <= c <= '9'
  }

  function DigitChar(d: nat): (c: char)
    requires d < 10
    ensures IsDigit(c) && c as int - '0' as int == d
  {
    (d + '0' as int) as char
  }

  /** The digits of `n`, most significant first, with no leading zero. */
  function Digits(n: nat): (s: string)
    ensures |s| >= 1
    ensures forall i :: 0 <= i < |s| ==> IsDigit(s[i])
    ensures s[0] == '0' ==> n == 0
    decreases n
  {
    if n < 10 then [DigitChar(n)] else Digits(n / 10) + [DigitChar(n % 10)]
  }

  /** `strconv.FormatInt(n, 10)`: a minus sign for negative values, then the
      digits of the magnitude. */
  function Format(n: int): (s: string)
    ensures |s| >= 1
    ensures n >= 0 ==> forall i :: 0 <= i < |s| ==> IsDigit(s[i])
    ensures n < 0 ==> s[0] == '-' && forall i :: 1 <= i < |s| ==> IsDigit(s[i])
    ensures n == 0 ==> s == "0"
    ensures n > 0 ==> s[0] != '0'
    ensures n < 0 ==> |s| >= 2 && s[1] != '0'
  {
    if n < 0 then "-" + Digits(-n) else Digits(n)
  }

  /** The value of a string of decimal digits. */
  function DigitsValue(s: string): (n: nat)
    requires forall i :: 0 <= i < |s| ==> IsDigit(s[i])
    decreases |s|
  {
    if |s| == 0 then 0
    else
      var last := s[|s| - 1];
      assert IsDigit(last);
      DigitsValue(s[..|s| - 1]) * 10 + (last as int - '0' as int)
  }

  /** Reads back a base-10 integer with an optional leading minus sign. */
  function Parse(s: string): (r: Option<int>)
    ensures r.Some? ==> |s| >= 1
  {
    if |s| >= 2 && s[0] == '-' && forall i :: 1 <= i < |s| ==> IsDigit(s[i]) then
      var magnitude: int := DigitsValue(s[1..]);
      Some(-magnitude)
    else if |s| >= 1 && forall i :: 0 <= i < |s| ==> IsDigit(s[i]) then
      Some(DigitsValue(s))
    else None
  }

  lemma {:induction false} DigitsRoundTrip(n: nat)
    ensures DigitsValue(Digits(n)) == n
    decreases n
  {
    var s := Digits(n);
    if n >= 10 {
      DigitsRoundTrip(n / 10);
      assert s[..|s| - 1] == Digits(n / 10);
    }
  }

  /** Every integer's text reads back as that integer. */
  lemma FormatRoundTrip(n: int)
    ensures Parse(Format(n)) == Some(n)
  {
    var s := Format(n);
    if n < 0 {
      var d := Digits(-n);
      assert s == "-" + d && s[1..] == d;
      DigitsRoundTrip(-n);
      var magnitude: int := DigitsValue(d);
      assert Parse(s) == Some(-magnitude);
    } else {
      DigitsRoundTrip(n);
      assert s[0] != '-';
    }
  }

  /** Distinct integers have distinct texts. */
  lemma FormatInjective(a: int, b: int)
    requires Format(a) == Format(b)
    ensures a == b
  {
    FormatRoundTrip(a);
    FormatRoundTrip(b);
  }
}

=== FILE: discovery.dfy ===
/** The discovery worker: it consumes the adapter's scan events and appends the
    address of every device advertising the sensor name to the shared registry.

    D-Bus is abstracted away: each event carries the outcome of resolving its
    object path to a device, and the stream is a finite prefix of what the
    worker's `select` observed, cancellation and channel closing included. */
module Discovery {

  /** The advertised name that identifies a supported sensor. */
  const SensorName: string := "tps"

  /** The change an adapter event reports. */
  datatype EventKind = DeviceAdded | DeviceRemoved

  /** What resolving the event's object path to a device returned. */
  datatype Resolution = ResolveFailed | Resolved(name: string, address: string)

  datatype ScanEvent = ScanEvent(kind: EventKind, resolution: Resolution)

  /** The known sensor addresses in discovery order; duplicates allowed. */
  type Registry = seq<string>

  /** What one turn of the worker's `select` received. */
  datatype Signal = Cancelled | StreamClosed | Received(event: ScanEvent)

  /** True when the event identifies a sensor whose address must be recorded. */
  predicate Accepts(e: ScanEvent)
  {
    && e.kind != DeviceRemoved
    && e.resolution.Resolved?
    && e.resolution.name == SensorName
  }

  /** Handles one scan event. */
  function Step(registry: Registry, e: ScanEvent): (r: Registry)
    ensures registry <= r
    ensures e.kind == DeviceRemoved ==> r == registry
    ensures e.resolution.ResolveFailed? ==> r == registry
    ensures e.resolution.Resolved? && e.resolution.name != SensorName ==> r == registry
    ensures Accepts(e) ==> r == registry + [e.resolution.address]
  {
    if e.kind == DeviceRemoved then registry
    else
      match e.resolution
      case ResolveFailed => registry
      case Resolved(name, address) =>
        if name == SensorName then registry + [address] else registry
  }

  /** The worker's loop over the signals it received, stopping at the first
      cancellation or stream close. */
  function Discover(registry: Registry, signals: seq<Signal>): (r: Registry)
    ensures registry <= r
    ensures |r| <= |registry| + |signals|
    decreases |signals|
  {
    if |signals| == 0 then registry
    else
      match signals[0]
      case Cancelled => registry
      case StreamClosed => registry
      case Received(e) => Discover(Step(registry, e), signals[1..])
  }

  /** The events the loop handles: those received before the first stop. */
  function Handled(signals: seq<Signal>): (events: seq<ScanEvent>)
    ensures |events| <= |signals|
  {
    if |signals| == 0 || !signals[0].Received? then []
    else [signals[0].event] + Handled(signals[1..])
  }

  /** Reference definition: the addresses of the accepted events, in order. */
  function AcceptedAddresses(events: seq<ScanEvent>): (addresses: seq<string>)
    ensures |addresses| <= |events|
  {
    if |events| == 0 then []
    else if Accepts(events[0]) then [events[0].resolution.address] + AcceptedAddresses(events[1..])
    else AcceptedAddresses(events[1..])
  }

  /** The loop appends, in order and without deduplication, exactly the
      addresses of the accepted events it handled. */
  lemma {:induction false} DiscoverAppendsAccepted(registry: Registry, signals: seq<Signal>)
    ensures Discover(registry, signals) == registry + AcceptedAddresses(Handled(signals))
    decreases |signals|
  {
    if |signals| == 0 || !signals[0].Received? {
    } else {
      var e := signals[0].event;
      var rest := AcceptedAddresses(Handled(signals[1..]));
      DiscoverAppendsAccepted(Step(registry, e), signals[1..]);
      assert Handled(signals) == [e] + Handled(signals[1..]);
      assert ([e] + Handled(signals[1..]))[1..] == Handled(signals[1..]);
      if Accepts(e) {
        assert AcceptedAddresses(Handled(signals)) == [e.resolution.address] + rest;
        assert registry + [e.resolution.address] + rest == registry + ([e.resolution.address] + rest);
      } else {
        assert AcceptedAddresses(Handled(signals)) == rest;
      }
    }
  }

  /** Appending ignores duplicates: the registry grows by exactly the number of
      accepted events handled, even when they repeat an address. */
  lemma DiscoverGrowth(registry: Registry, signals: seq<Signal>)
    ensures |Discover(registry, signals)| == |registry| + |AcceptedAddresses(Handled(signals))|
  {
    DiscoverAppendsAccepted(registry, signals);
  }

  lemma {:induction false} AcceptedAddressesComplete(events: seq<ScanEvent>, e: ScanEvent)
    requires e in events && Accepts(e)
    ensures e.resolution.address in AcceptedAddresses(events)
    decreases |events|
  {
    if events[0] != e {
      assert e in events[1..];
      AcceptedAddressesComplete(events[1..], e);
    }
  }

  lemma {:induction false} AcceptedAddressesSound(events: seq<ScanEvent>, a: string)
    requires a in AcceptedAddresses(events)
    ensures exists e :: e in events && Accepts(e) && e.resolution.address == a
    decreases |events|
  {
    if Accepts(events[0]) && a == events[0].resolution.address {
      assert events[0] in events;
    } else {
      AcceptedAddressesSound(events[1..], a);
      var e :| e in events[1..] && Accepts(e) && e.resolution.address == a;
      assert e in events;
    }
  }

  /** Every sensor event handled before a stop leaves its address in the
      registry, and every address in the registry was already there or came
      from a handled event that advertised the sensor name. */
  lemma DiscoverMembership(registry: Registry, signals: seq<Signal>, a: string)
    ensures a in Discover(registry, signals) <==>
              (a in registry || exists e :: e in Handled(signals) && Accepts(e) && e.resolution.address == a)
  {
    DiscoverAppendsAccepted(registry, signals);
    var r := Discover(registry, signals);
    if a in r && a !in registry {
      assert a in AcceptedAddresses(Handled(signals));
      AcceptedAddressesSound(Handled(signals), a);
    }
    if exists e :: e in Handled(signals) && Accepts(e) && e.resolution.address == a {
      var e :| e in Handled(signals) && Accepts(e) && e.resolution.address == a;
      AcceptedAddressesComplete(Handled(signals), e);
    }
  }

  /** Once the loop's `select` takes the cancellation case or sees the event
      channel closed, no later event reaches the registry. */
  lemma {:induction false} DiscoverStopsAtStop(registry: Registry, before: seq<Signal>, stop: Signal, after: seq<Signal>)
    requires !stop.Received?
    ensures Discover(registry, before + [stop] + after) == Discover(registry, before)
    decreases |before|
  {
    if |before| == 0 {
      assert (before + [stop] + after)[0] == stop;
    } else {
      assert (before + [stop] + after)[0] == before[0];
      assert (before + [stop] + after)[1..] == before[1..] + [stop] + after;
      if before[0].Received? {
        DiscoverStopsAtStop(Step(registry, before[0].event), before[1..], stop, after);
      }
    }
  }
}

=== FILE: poll.dfy ===
/** The poll worker's pass over the registry on one ticker tick: for each
    registered address it looks the device up, decodes a one-entry
    manufacturer-data map into a reading and, whenever the map was non-empty,
    asks the adapter to drop the device so that the next tick sees only a
    fresh advertisement. A failed lookup, a missing device or an empty map
    leaves the device alone, and a map with two or more entries gives no
    reading.

    The adapter is abstracted as the sequence of outcomes its lookups returned,
    one per registry entry in iteration order; the adapter may change between
    two lookups (a removal, a new advertisement), so two entries for the same
    address get independent outcomes. `RemoveDevice` becomes an emitted path. */
module Poll {
  import opened Readings

  /** A manufacturer-data value as BlueZ delivers it through `interface{}`. */
  datatype MfdValue =
    | VariantBytes(bytes: seq<Byte>)  // a `dbus.Variant` wrapping `[]byte`
    | VariantOther                    // a `dbus.Variant` wrapping anything else
    | NotVariant                      // not a `dbus.Variant` at all

  /** Manufacturer data: manufacturer ID to value. The sensor advertises its
      temperature in centidegrees as the manufacturer ID itself. */
  type ManufacturerData = map<Uint16, MfdValue>

  datatype Device = Device(path: string, manufacturerData: ManufacturerData)

  /** What looking a registered address up on the adapter returned. */
  datatype Lookup =
    | LookupFailed     // the lookup reported an error
    | NoDevice         // no error, but a nil device or nil properties
    | Found(device: Device)

  /** How a too-short byte payload is treated: `AsWritten` indexes byte 5
      unconditionally and so panics; `LengthChecked` falls back to battery 0,
      as for every other malformed value. */
  datatype BatteryPolicy = AsWritten | LengthChecked

  /** The battery field as decoded, or the index-out-of-range panic. */
  datatype BatteryDecode = Battery(level: Byte) | IndexOutOfRange

  /** What one registry entry contributes to the pass. */
  datatype SlotOutcome =
    | Skipped                               // no reading, no removal
    | RemovedOnly(path: string)             // no reading, the device is removed
    | Emitted(reading: Reading, path: string) // one reading, then the device is removed
    | Panicked                              // the goroutine panics; the pass ends

  /** The battery level the Go code derives from a manufacturer-data value:
      byte 5 of a variant-wrapped byte slice, 0 for any other shape. */
  function DecodeBattery(v: MfdValue, policy: BatteryPolicy): (d: BatteryDecode)
    ensures d.IndexOutOfRange? <==> policy == AsWritten && v.VariantBytes? && |v.bytes| < 6
    ensures v.VariantBytes? && |v.bytes| >= 6 ==> d == Battery(v.bytes[5])
    ensures !v.VariantBytes? ==> d == Battery(0)
    ensures policy == LengthChecked && v.VariantBytes? && |v.bytes| < 6 ==> d == Battery(0)
  {
    match v
    case VariantBytes(bytes) =>
      if |bytes| >= 6 then Battery(bytes[5])
      else if policy == AsWritten then IndexOutOfRange
      else Battery(0)
    case VariantOther => Battery(0)
    case NotVariant => Battery(0)
  }

  /** The two policies agree on every value the Go code decodes without
      panicking. */
  lemma DecodePoliciesAgree(v: MfdValue)
    requires DecodeBattery(v, AsWritten).Battery?
    ensures DecodeBattery(v, LengthChecked) == DecodeBattery(v, AsWritten)
  {
  }

  /** A map with exactly one entry has exactly one key. */
  lemma SingletonKey<K, V>(m: map<K, V>)
    requires |m| == 1
    ensures forall a, b :: a in m && b in m ==> a == b
  {
    forall a, b | a in m && b in m
      ensures a == b
    {
      var others := m.Keys - {a};
      assert |others| == |m.Keys| - 1 == 0;
      assert others == {};
      assert b !in others;
    }
  }

  /** The key of a one-entry manufacturer-data map: the single iteration of
      the poller's `range` loop. */
  function OnlyKey(m: ManufacturerData): (k: Uint16)
    requires |m| == 1
    ensures k in m
    ensures forall k' :: k' in m ==> k' == k
  {
    SingletonKey(m);
    var k :| k in m; k
  }

  /** One iteration of the pass's loop body, for the entry `address`. */
  function PollSlot(address: string, lookup: Lookup, policy: BatteryPolicy): (o: SlotOutcome)
    ensures !lookup.Found? ==> o == Skipped
    ensures lookup.Found? && |lookup.device.manufacturerData| == 0 ==> o == Skipped
    ensures lookup.Found? && |lookup.device.manufacturerData| >= 2 ==> o == RemovedOnly(lookup.device.path)
    ensures lookup.Found? && |lookup.device.manufacturerData| == 1 ==>
              var mfd := lookup.device.manufacturerData;
              var k := OnlyKey(mfd);
              match DecodeBattery(mfd[k], policy)
              case Battery(level) => o == Emitted(Reading(address, k, level), lookup.device.path)
              case IndexOutOfRange => o == Panicked
    ensures o.Panicked? ==> policy == AsWritten
    ensures o.Emitted? ==> o.reading.address == address
  {
    match lookup
    case LookupFailed => Skipped
    case NoDevice => Skipped
    case Found(dev) =>
      var mfd := dev.manufacturerData;
      if |mfd| == 0 then Skipped
      else if |mfd| == 1 then
        var k := OnlyKey(mfd);
        match DecodeBattery(mfd[k], policy)
        case IndexOutOfRange => Panicked
        case Battery(level) => Emitted(Reading(address, k, level), dev.path)
      else RemovedOnly(dev.path)
  }

  /** What a pass sent on the readings channel, which paths it passed to
      `RemoveDevice`, and whether it ended in a panic. */
  datatype PassResult = PassResult(readings: seq<Reading>, removals: seq<string>, panicked: bool)

  /** The effects of one slot followed by the effects of the rest of the pass;
      a panic discards the rest. */
  function Then(first: SlotOutcome, rest: PassResult): PassResult
  {
    match first
    case Skipped => rest
    case RemovedOnly(path) => PassResult(rest.readings, [path] + rest.removals, rest.panicked)
    case Emitted(reading, path) => PassResult([reading] + rest.readings, [path] + rest.removals, rest.panicked)
    case Panicked => PassResult([], [], true)
  }

  /** One full pass over the registry, with `lookups[i]` the outcome of looking
      `registry[i]` up. The pass reads the registry and never changes it. */
  function PollPass(registry: seq<string>, lookups: seq<Lookup>, policy: BatteryPolicy): (p: PassResult)
    requires |lookups| == |registry|
    ensures |p.readings| <= |p.removals| <= |registry|
    ensures forall r :: r in p.readings ==> r.address in registry
    ensures p.panicked ==> policy == AsWritten
    decreases |registry|
  {
    if |registry| == 0 then PassResult([], [], false)
    else
      var rest := PollPass(registry[1..], lookups[1..], policy);
      assert forall r :: r in rest.readings ==> r.address in registry by {
        forall r | r in rest.readings ensures r.address in registry {
          assert r.address in registry[1..];
        }
      }
      Then(PollSlot(registry[0], lookups[0], policy), rest)
  }

  /** Sequential composition of two parts of a pass: the second part runs only
      if the first did not panic. */
  function Append(a: PassResult, b: PassResult): PassResult
  {
    if a.panicked then a
    else PassResult(a.readings + b.readings, a.removals + b.removals, b.panicked)
  }

  /** Registry order is emission order: a pass over `r1 + r2` performs the pass
      over `r1` and then, unless it panicked, the pass over `r2`. */
  lemma {:induction false} PollPassSplits(r1: seq<string>, l1: seq<Lookup>, r2: seq<string>, l2: seq<Lookup>, policy: BatteryPolicy)
    requires |l1| == |r1| && |l2| == |r2|
    ensures PollPass(r1 + r2, l1 + l2, policy) == Append(PollPass(r1, l1, policy), PollPass(r2, l2, policy))
    decreases |r1|
  {
    if |r1| == 0 {
      assert r1 + r2 == r2;
      assert l1 + l2 == l2;
    } else {
      assert (r1 + r2)[0] == r1[0] && (l1 + l2)[0] == l1[0];
      assert (r1 + r2)[1..] == r1[1..] + r2;
      assert (l1 + l2)[1..] == l1[1..] + l2;
      PollPassSplits(r1[1..], l1[1..], r2, l2, policy);
      ThenAppend(PollSlot(r1[0], l1[0], policy), PollPass(r1[1..], l1[1..], policy), PollPass(r2, l2, policy));
    }
  }

  /** A slot's effects followed by two parts of a pass are the slot's effects
      with the first part, followed by the second. */
  lemma ThenAppend(o: SlotOutcome, p1: PassResult, p2: PassResult)
    ensures Then(o, Append(p1, p2)) == Append(Then(o, p1), p2)
  {
    match o
    case Skipped =>
    case Panicked =>
    case RemovedOnly(path) =>
      if !p1.panicked {
        assert [path] + (p1.removals + p2.removals) == ([path] + p1.removals) + p2.removals;
      }
    case Emitted(reading, path) =>
      if !p1.panicked {
        assert [path] + (p1.removals + p2.removals) == ([path] + p1.removals) + p2.removals;
        assert [reading] + (p1.readings + p2.readings) == ([reading] + p1.readings) + p2.readings;
      }
  }

  /** A pass over a single registry entry: each entry contributes at most one
      reading, its reading carries the entry's address and the decoded
      temperature key, and a reading is always followed by removal of the
      device it came from. */
  lemma PollPassOfOneEntry(address: string, lookup: Lookup, policy: BatteryPolicy)
    ensures var p := PollPass([address], [lookup], policy);
      && |p.readings| <= 1
      && (|p.readings| == 1 <==> PollSlot(address, lookup, policy).Emitted?)
      && (|p.readings| == 1 ==>
            && lookup.Found?
            && |lookup.device.manufacturerData| == 1
            && p.readings[0].address == address
            && p.readings[0].centidegrees == OnlyKey(lookup.device.manufacturerData)
            && p.removals == [lookup.device.path])
      && (p.removals == [] <==> (!lookup.Found? || |lookup.device.manufacturerData| == 0 || p.panicked))
  {
    assert [address][1..] == [] && [lookup][1..] == [];
  }

  /** The corrected policy never panics and, on every pass the Go code completes,
      produces exactly what the Go code produces. */
  lemma {:induction false} LengthCheckedRefinesAsWritten(registry: seq<string>, lookups: seq<Lookup>)
    requires |lookups| == |registry|
    ensures !PollPass(registry, lookups, LengthChecked).panicked
    ensures !PollPass(registry, lookups, AsWritten).panicked ==>
              PollPass(registry, lookups, LengthChecked) == PollPass(registry, lookups, AsWritten)
    decreases |registry|
  {
    if |registry| > 0 {
      LengthCheckedRefinesAsWritten(registry[1..], lookups[1..]);
    }
  }

  /** One loop iteration: the slot at `i` followed by the rest of the pass. */
  lemma PollPassUnfold(registry: seq<string>, lookups: seq<Lookup>, policy: BatteryPolicy, i: nat)
    requires |lookups| == |registry| && i < |registry|
    ensures PollPass(registry[i..], lookups[i..], policy)
              == Then(PollSlot(registry[i], lookups[i], policy), PollPass(registry[i + 1..], lookups[i + 1..], policy))
  {
    assert registry[i..][1..] == registry[i + 1..] && lookups[i..][1..] == lookups[i + 1..];
  }

  /** Accumulating the effects of a slot that did not panic. */
  lemma AppendThen(acc: PassResult, o: SlotOutcome, rest: PassResult)
    requires !acc.panicked && !o.Panicked?
    ensures Append(acc, Then(o, rest)) == Append(Append(acc, Then(o, PassResult([], [], false))), rest)
  {
    match o
    case Skipped =>
    case RemovedOnly(path) =>
      assert acc.removals + ([path] + rest.removals) == (acc.removals + [path]) + rest.removals;
    case Emitted(reading, path) =>
      assert acc.removals + ([path] + rest.removals) == (acc.removals + [path]) + rest.removals;
      assert acc.readings + ([reading] + rest.readings) == (acc.readings + [reading]) + rest.readings;
  }

  /** One loop iteration on the pass's effects. With `done` the effects of the
      slots before `i`, a panic at `i` ends the pass with `done` kept;
      otherwise slot `i`'s reading and removal join `done`, and the pass goes
      on from `i + 1`. */
  lemma LoopStep(registry: seq<string>, lookups: seq<Lookup>, policy: BatteryPolicy, i: nat, done: PassResult)
    requires |lookups| == |registry| && i < |registry| && !done.panicked
    requires PollPass(registry, lookups, policy) == Append(done, PollPass(registry[i..], lookups[i..], policy))
    ensures var o := PollSlot(registry[i], lookups[i], policy);
            var rest := PollPass(registry[i + 1..], lookups[i + 1..], policy);
            && (o.Panicked? ==> PollPass(registry, lookups, policy) == PassResult(done.readings, done.removals, true))
            && (o.Skipped? ==> PollPass(registry, lookups, policy) == Append(done, rest))
            && (o.RemovedOnly? ==>
                  PollPass(registry, lookups, policy)
                    == Append(PassResult(done.readings, done.removals + [o.path], false), rest))
            && (o.Emitted? ==>
                  PollPass(registry, lookups, policy)
                    == Append(PassResult(done.readings + [o.reading], done.removals + [o.path], false), rest))
  {
    PollPassUnfold(registry, lookups, policy, i);
    var outcome := PollSlot(registry[i], lookups[i], policy);
    var rest := PollPass(registry[i + 1..], lookups[i + 1..], policy);
    if !outcome.Panicked? {
      AppendThen(done, outcome, rest);
      var none := PassResult([], [], false);
      match outcome {
        case Skipped =>
          assert Then(outcome, none) == none;
        case RemovedOnly(path) =>
          assert Then(outcome, none) == PassResult([], [path], false);
        case Emitted(reading, path) =>
          assert Then(outcome, none) == PassResult([reading], [path], false);
      }
    }
  }

  /** The pass as the Go code writes it: a loop over the registry that sends
      each reading, then removes the device, and stops at a panic. */
  method RunPollPass(registry: seq<string>, lookups: seq<Lookup>, policy: BatteryPolicy)
    returns (readings: seq<Reading>, removals: seq<string>, panicked: bool)
    requires |lookups| == |registry|
    ensures PassResult(readings, removals, panicked) == PollPass(registry, lookups, policy)
  {
    readings, removals, panicked := [], [], false;
    var i := 0;
    while i < |registry|
      invariant 0 <= i <= |registry|
      invariant PollPass(registry, lookups, policy)
                  == Append(PassResult(readings, removals, false), PollPass(registry[i..], lookups[i..], policy))
    {
      LoopStep(registry, lookups, policy, i, PassResult(readings, removals, false));
      match PollSlot(registry[i], lookups[i], policy) {
        case Panicked =>
          panicked := true;
          return;
        case Skipped =>
        case RemovedOnly(path) =>
          removals := removals + [path];
        case Emitted(reading, path) =>
          readings := readings + [reading];
          removals := removals + [path];
      }
      i := i + 1;
    }
    assert registry[i..] == [] && lookups[i..] == [];
  }

  /** A one-entry advertisement whose byte payload is shorter than six bytes
      ends the Go code's pass in a panic; the length-checked decode emits the
      reading with battery 0 and removes the device. */
  lemma ShortPayloadPanics()
    ensures var lookup := Found(Device("/dev", map[2500 := VariantBytes([0, 0, 42])]));
      && PollPass(["AA:BB"], [lookup], AsWritten) == PassResult([], [], true)
      && PollPass(["AA:BB"], [lookup], LengthChecked)
           == PassResult([Reading("AA:BB", 2500, 0)], ["/dev"], false)
  {
    var m := map[2500 := VariantBytes([0, 0, 42])];
    assert 2500 in m && |m| == 1;
    assert OnlyKey(m) == 2500;
    assert ["AA:BB"][1..] == [];
  }
}

=== FILE: readings.dfy ===
/** Value types shared by the poller and the publisher: the machine integer
    widths the Go code relies on, and the `Reading` handed between the two. */
module Readings {

  /** Go's `byte` (`uint8`). */
  type Byte = x: int | 0 <= x < 0x100

  /** Go's `uint16`: the key type of BlueZ's manufacturer-data map. */
  type Uint16 = x: int | 0 <= x < 0x1_0000

  /** Go's `int` on a 64-bit platform, which `int64(...)` converts unchanged. */
  type Int64 = x: int | -0x8000_0000_0000_0000 <= x < 0x8000_0000_0000_0000

  /** One sensor sample. The Go code carries the temperature as the float
      `Value`, always computed as an integer key divided by 100; the model keeps
      that integer, so `centidegrees` is the temperature in hundredths of a
      degree Celsius. */
  datatype Reading = Reading(address: string, centidegrees: int, battery: Int64)
}

=== FILE: report.dfy ===
/** The publisher's loop: it takes readings off the channel and publishes, for
    each, a retained temperature message and then, only if that publish
    reported no error when checked, a retained battery message. The check does
    not wait for the broker's acknowledgement, so a publish still in flight
    counts as having no error.

    The MQTT client is abstracted away: each received reading carries whether
    the temperature publish reported an error, and the loop's `select` is the
    order of its signals. */
module Report {
  import opened Readings
  import opened Wrappers
  import Topics
  import Decimal

  /** MQTT quality of service 1: at-least-once delivery. */
  const QualityOfService: nat := 1

  /** The message payload. The temperature text is the reading's value with
      two decimals; the model keeps the integer centidegrees it is printed
      from. */
  datatype Payload = TemperatureText(centidegrees: int) | Text(text: string)

  datatype Message = Message(topic: string, qos: nat, retained: bool, payload: Payload)

  /** What one turn of the publisher's `select` received. */
  datatype Signal =
    | Cancelled
    | ChannelClosed
    | Delivered(reading: Reading, temperatureFailed: bool)

  /** The messages published for one reading, in order. */
  function PublishReading(prefix: string, r: Reading, temperatureFailed: bool): (ms: seq<Message>)
    ensures |ms| == if temperatureFailed then 1 else 2
    ensures ms[0].topic == Topics.ValueTopic(prefix, r.address)
    ensures ms[0].payload == TemperatureText(r.centidegrees)
    ensures !temperatureFailed ==> ms[1].topic == Topics.BatteryTopic(prefix, r.address)
    ensures !temperatureFailed ==> ms[1].topic == BatteryTopicUnder(ms[0].topic)
    ensures !temperatureFailed ==> ms[1].payload.Text? && Decimal.Parse(ms[1].payload.text) == Some(r.battery as int)
    ensures !temperatureFailed ==> ms[1].payload == Text(Decimal.Format(r.battery))
    ensures forall i :: 0 <= i < |ms| ==> ms[i].qos == QualityOfService && ms[i].retained
  {
    var temperature := Message(Topics.ValueTopic(prefix, r.address), QualityOfService, true,
                               TemperatureText(r.centidegrees));
    if temperatureFailed then [temperature]
    else
      Decimal.FormatRoundTrip(r.battery);
      Topics.BatteryTopicExtendsValueTopic(prefix, r.address);
      [temperature, Message(Topics.BatteryTopic(prefix, r.address), QualityOfService, true,
                            Text(Decimal.Format(r.battery)))]
  }

  /** The messages the loop publishes, stopping at the first cancellation or
      channel close. */
  function Report(prefix: string, signals: seq<Signal>): (ms: seq<Message>)
    ensures |ms| <= 2 * |signals|
    ensures |ms| > 0 ==> ms[0].payload.TemperatureText?
    decreases |signals|
  {
    if |signals| == 0 || !signals[0].Delivered? then []
    else
      var s := signals[0];
      PublishReading(prefix, s.reading, s.temperatureFailed) + Report(prefix, signals[1..])
  }

  /** The readings the loop takes off the channel: those before the first stop. */
  function Consumed(signals: seq<Signal>): (rs: seq<Reading>)
    ensures |rs| <= |signals|
  {
    if |signals| == 0 || !signals[0].Delivered? then []
    else [signals[0].reading] + Consumed(signals[1..])
  }

  /** Each consumed reading yields one or two messages. */
  lemma {:induction false} ReportCount(prefix: string, signals: seq<Signal>)
    ensures |Consumed(signals)| <= |Report(prefix, signals)| <= 2 * |Consumed(signals)|
    decreases |signals|
  {
    if |signals| > 0 && signals[0].Delivered? {
      ReportCount(prefix, signals[1..]);
    }
  }

  /** The battery topic that belongs to a value topic: one `battery` segment
      below it. */
  function BatteryTopicUnder(valueTopic: string): string
  {
    if valueTopic == "" then Topics.BatterySegment else valueTopic + "/" + Topics.BatterySegment
  }

  /** Every text (battery) message directly follows a temperature message and
      is published one `battery` segment below that message's topic. */
  predicate BatteryAfterTemperature(ms: seq<Message>)
  {
    forall i :: 0 <= i < |ms| && ms[i].payload.Text? ==>
      i > 0 && ms[i - 1].payload.TemperatureText? && ms[i].topic == BatteryTopicUnder(ms[i - 1].topic)
  }

  /** A battery message is always immediately preceded by a temperature
      message and published one `battery` segment below that message's topic:
      a battery is never published first or on its own. */
  lemma {:induction false} BatteryFollowsTemperature(prefix: string, signals: seq<Signal>)
    ensures BatteryAfterTemperature(Report(prefix, signals))
    decreases |signals|
  {
    if |signals| > 0 && signals[0].Delivered? {
      BatteryFollowsTemperature(prefix, signals[1..]);
      var s := signals[0];
      var head := PublishReading(prefix, s.reading, s.temperatureFailed);
      var tail := Report(prefix, signals[1..]);
      var ms := head + tail;
      forall i | 0 <= i < |ms|
        ensures ms[i].payload.Text? ==>
                  i > 0 && ms[i - 1].payload.TemperatureText? && ms[i].topic == BatteryTopicUnder(ms[i - 1].topic)
      {
        if i < |head| {
          assert ms[i] == head[i];
          if i > 0 {
            assert ms[i - 1] == head[i - 1];
            assert head[0].payload.TemperatureText?;
          }
        } else {
          assert ms[i] == tail[i - |head|];
          if i > |head| {
            assert ms[i - 1] == tail[i - 1 - |head|];
            var j := i - |head|;
            assert tail[j].payload.Text? ==>
                     tail[j - 1].payload.TemperatureText? && tail[j].topic == BatteryTopicUnder(tail[j - 1].topic);
          } else {
            assert tail[0].payload.TemperatureText?;
          }
        }
      }
    }
  }

  /** Once the loop's `select` takes the cancellation case or sees the channel
      closed, nothing more is published. */
  lemma {:induction false} ReportStopsAtStop(prefix: string, before: seq<Signal>, stop: Signal, after: seq<Signal>)
    requires !stop.Delivered?
    ensures Report(prefix, before + [stop] + after) == Report(prefix, before)
    decreases |before|
  {
    if |before| == 0 {
      assert (before + [stop] + after)[0] == stop;
    } else {
      assert (before + [stop] + after)[0] == before[0];
      assert (before + [stop] + after)[1..] == before[1..] + [stop] + after;
      if before[0].Delivered? {
        ReportStopsAtStop(prefix, before[1..], stop, after);
      }
    }
  }

  /** Readings are published in the order they leave the channel: the messages
      for a run of deliveries come before those of the signals after it. */
  lemma {:induction false} ReportSplits(prefix: string, first: seq<Signal>, second: seq<Signal>)
    requires forall i :: 0 <= i < |first| ==> first[i].Delivered?
    ensures Report(prefix, first + second) == Report(prefix, first) + Report(prefix, second)
    decreases |first|
  {
    if |first| == 0 {
      assert first + second == second;
    } else {
      assert (first + second)[0] == first[0];
      assert (first + second)[1..] == first[1..] + second;
      ReportSplits(prefix, first[1..], second);
      var head := PublishReading(prefix, first[0].reading, first[0].temperatureFailed);
      assert head + (Report(prefix, first[1..]) + Report(prefix, second))
          == (head + Report(prefix, first[1..])) + Report(prefix, second);
    }
  }
}

=== FILE: scenario.dfy ===
/** The bridge end to end: one discovery event, one poll pass, one publish. */
module Scenario {
  import opened Readings
  import Discovery
  import Poll
  import Report
  import Topics
  import Decimal

  /** The advertisement of a sensor: one manufacturer-data entry. */
  function Advertisement(path: string, key: Uint16, bytes: seq<Byte>): Poll.Lookup
  {
    Poll.Found(Poll.Device(path, map[key := Poll.VariantBytes(bytes)]))
  }

  /** A device named `tps` that advertises one entry keyed `key` with at least
      six payload bytes is recorded once, yields exactly one reading of `key`
      centidegrees and battery `bytes[5]` followed by removal of its device,
      and that reading is published as the temperature and then the battery
      message on the sensor's topics. */
  lemma DiscoverPollPublish(address: string, path: string, key: Uint16, bytes: seq<Byte>, prefix: string)
    requires |bytes| >= 6
    ensures var registry := Discovery.Discover([], [Discovery.Received(
              Discovery.ScanEvent(Discovery.DeviceAdded, Discovery.Resolved(Discovery.SensorName, address)))]);
      && registry == [address]
      && Poll.PollPass(registry, [Advertisement(path, key, bytes)], Poll.AsWritten)
           == Poll.PassResult([Reading(address, key, bytes[5])], [path], false)
      && Report.Report(prefix, [Report.Delivered(Reading(address, key, bytes[5]), false)])
           == [Report.Message(Topics.ValueTopic(prefix, address), Report.QualityOfService, true, Report.TemperatureText(key)),
               Report.Message(Topics.BatteryTopic(prefix, address), Report.QualityOfService, true, Report.Text(Decimal.Format(bytes[5])))]
  {
    var e := Discovery.ScanEvent(Discovery.DeviceAdded, Discovery.Resolved(Discovery.SensorName, address));
    assert Discovery.Step([], e) == [address];
    var m := map[key := Poll.VariantBytes(bytes)];
    assert key in m && |m| == 1;
    assert Poll.OnlyKey(m) == key;
    assert [address][1..] == [];
    var signals := [Report.Delivered(Reading(address, key, bytes[5]), false)];
    assert signals[1..] == [];
  }

  /** The topics of the sensor at `AA:BB:CC:DD:EE:FF` under prefix `inkbird`.
      Prefix and address are parameters pinned by `requires` because literal
      arguments would let the verifier unfold `DashedAddress` without bound.
      The expected topics are written as concatenations so that no long
      literal has to be compared character by character. */
  lemma SensorTopics(prefix: string, address: string)
    requires prefix == "inkbird"
    requires address == "AA:BB:CC:DD:EE:FF"
    ensures Topics.ValueTopic(prefix, address) == "inkbird" + "/" + "AA-BB-CC-DD-EE-FF"
    ensures Topics.BatteryTopic(prefix, address) == "inkbird" + "/" + "AA-BB-CC-DD-EE-FF" + "/" + "battery"
  {
    SensorSegment(address);
  }

  /** The sensor's address segment. The comparison with the expected text is
      split into three ranges of characters to keep each proof small. */
  lemma SensorSegment(address: string)
    requires address == "AA:BB:CC:DD:EE:FF"
    ensures Topics.DashedAddress(address) == "AA-BB-CC-DD-EE-FF"
  {
    SensorSegmentRange(address, 0, 6);
    SensorSegmentRange(address, 6, 12);
    SensorSegmentRange(address, 12, 17);
  }

  /** The sensor's address segment agrees with the expected text on the
      characters from `lo` up to `hi`. */
  lemma SensorSegmentRange(address: string, lo: nat, hi: nat)
    requires address == "AA:BB:CC:DD:EE:FF"
    requires (lo, hi) == (0, 6) || (lo, hi) == (6, 12) || (lo, hi) == (12, 17)
    ensures forall i :: lo <= i < hi ==> Topics.DashedAddress(address)[i] == "AA-BB-CC-DD-EE-FF"[i]
  {
  }
}

=== FILE: topics.dfy ===
/** The broker topics a reading is published under: the configured prefix
    joined with the sensor address, in which every `:` becomes `-`, and a
    `battery` segment below that for the battery level. */
module Topics {

  /** The last segment of the battery topic. */
  const BatterySegment: string := "battery"

  /** `strings.Replace(address, ":", "-", -1)`. */
  function DashedAddress(address: string): (s: string)
    ensures |s| == |address|
    ensures forall i :: 0 <= i < |address| ==> s[i] == (if address[i] == ':' then '-' else address[i])
    ensures ':' !in s
    decreases |address|
  {
    if |address| == 0 then ""
    else [if address[0] == ':' then '-' else address[0]] + DashedAddress(address[1..])
  }

  /** Reverse of `DashedAddress` for addresses that contain no `-`. */
  function ColonAddress(s: string): (address: string)
    ensures |address| == |s|
    ensures forall i :: 0 <= i < |s| ==> address[i] == (if s[i] == '-' then ':' else s[i])
    decreases |s|
  {
    if |s| == 0 then ""
    else [if s[0] == '-' then ':' else s[0]] + ColonAddress(s[1..])
  }

  /** A MAC-style address (no `-`) is recovered from its topic segment. */
  lemma DashedAddressRoundTrip(address: string)
    requires '-' !in address
    ensures ColonAddress(DashedAddress(address)) == address
  {
    var back := ColonAddress(DashedAddress(address));
    forall i | 0 <= i < |address|
      ensures back[i] == address[i]
    {
      assert address[i] != '-';
    }
  }

  /** Two addresses without `-` never share a topic segment. */
  lemma DashedAddressInjective(a: string, b: string)
    requires '-' !in a && '-' !in b
    requires DashedAddress(a) == DashedAddress(b)
    ensures a == b
  {
    DashedAddressRoundTrip(a);
    DashedAddressRoundTrip(b);
  }

  /** The elements `filepath.Join` keeps: it drops empty ones. */
  function NonEmpty(elements: seq<string>): (kept: seq<string>)
    ensures |kept| <= |elements|
    ensures forall i :: 0 <= i < |kept| ==> kept[i] != ""
    ensures forall e :: e in kept ==> e in elements
  {
    if |elements| == 0 then []
    else if elements[0] == "" then NonEmpty(elements[1..])
    else [elements[0]] + NonEmpty(elements[1..])
  }

  /** The elements separated by `/`. */
  function JoinWithSlash(elements: seq<string>): string
  {
    if |elements| == 0 then ""
    else if |elements| == 1 then elements[0]
    else elements[0] + "/" + JoinWithSlash(elements[1..])
  }

  /** `filepath.Join` on elements that `filepath.Clean` leaves alone: the
      non-empty elements separated by `/`. */
  function Join(elements: seq<string>): (joined: string)
    ensures NonEmpty(elements) == [] ==> joined == ""
    ensures NonEmpty(elements) != [] && (forall e :: e in elements ==> '/' !in e) ==>
              Split(joined) == NonEmpty(elements)
  {
    SplitJoinKept(elements);
    JoinWithSlash(NonEmpty(elements))
  }

  /** The elements `Join` keeps are segments when none contains `/`. */
  lemma SplitJoinKept(elements: seq<string>)
    ensures NonEmpty(elements) != [] && (forall e :: e in elements ==> '/' !in e) ==>
              Split(JoinWithSlash(NonEmpty(elements))) == NonEmpty(elements)
  {
    var kept := NonEmpty(elements);
    if kept != [] && (forall e :: e in elements ==> '/' !in e) {
      forall i | 0 <= i < |kept| ensures IsSegment(kept[i]) {
        assert kept[i] in kept;
      }
      SplitJoin(kept);
    }
  }

  /** Splits a topic at every `/`. */
  function Split(s: string): (parts: seq<string>)
    ensures |parts| >= 1
    decreases |s|
  {
    if '/' !in s then [s]
    else
      var i := FirstSlash(s);
      [s[..i]] + Split(s[i + 1..])
  }

  function FirstSlash(s: string): (i: nat)
    requires '/' in s
    ensures i < |s| && s[i] == '/' && '/' !in s[..i]
    decreases |s|
  {
    if s[0] == '/' then 0
    else
      assert '/' in s[1..] by { var j :| 0 <= j < |s| && s[j] == '/'; assert s[1..][j - 1] == '/'; }
      var j := FirstSlash(s[1..]);
      assert s[..j + 1] == [s[0]] + s[1..][..j];
      j + 1
  }

  /** A topic segment: non-empty and free of `/`. */
  predicate IsSegment(e: string)
  {
    e != "" && '/' !in e
  }

  /** The first `/` after a `/`-free head is the one right after it. */
  lemma {:induction false} FirstSlashAfterHead(head: string, tail: string)
    requires '/' !in head
    ensures '/' in head + "/" + tail
    ensures FirstSlash(head + "/" + tail) == |head|
    decreases |head|
  {
    var s := head + "/" + tail;
    assert s[|head|] == '/';
    if |head| > 0 {
      assert s[0] == head[0] && head[0] != '/';
      assert s[1..] == head[1..] + "/" + tail;
      FirstSlashAfterHead(head[1..], tail);
    }
  }

  /** Joining segments and splitting the result at `/` gives the segments
      back. */
  lemma {:induction false} SplitJoin(segments: seq<string>)
    requires |segments| >= 1
    requires forall i :: 0 <= i < |segments| ==> IsSegment(segments[i])
    ensures Split(JoinWithSlash(segments)) == segments
    decreases |segments|
  {
    if |segments| == 1 {
      assert IsSegment(segments[0]);
    } else {
      var head := segments[0];
      assert IsSegment(head);
      var tail := JoinWithSlash(segments[1..]);
      var s := head + "/" + tail;
      FirstSlashAfterHead(head, tail);
      assert s[..|head|] == head;
      assert s[|head| + 1..] == tail;
      SplitJoin(segments[1..]);
    }
  }

  /** The topic a reading's temperature is published under: the prefix and
      the dashed address joined by `/`, an empty one of the two dropped. */
  function ValueTopic(prefix: string, address: string): (t: string)
    ensures prefix != "" && address != "" ==> t == prefix + "/" + DashedAddress(address)
    ensures prefix == "" ==> t == DashedAddress(address)
    ensures address == "" ==> t == prefix
  {
    JoinOfTwo(prefix, DashedAddress(address));
    Join([prefix, DashedAddress(address)])
  }

  /** The topic a reading's battery level is published under: the value topic
      with a final `battery` segment. */
  function BatteryTopic(prefix: string, address: string): (t: string)
    ensures prefix != "" && address != "" ==> t == prefix + "/" + DashedAddress(address) + "/" + BatterySegment
    ensures prefix == "" && address != "" ==> t == DashedAddress(address) + "/" + BatterySegment
    ensures prefix != "" && address == "" ==> t == prefix + "/" + BatterySegment
    ensures prefix == "" && address == "" ==> t == BatterySegment
  {
    var d := DashedAddress(address);
    JoinOfTwo(prefix, d);
    JoinOfThree(prefix, d, BatterySegment);
    Join([prefix, d, BatterySegment])
  }

  /** `Join` of two elements. */
  lemma JoinOfTwo(x: string, y: string)
    ensures Join([x, y]) == if x == "" then y else if y == "" then x else x + "/" + y
  {
    NonEmptyOfShortLists(x, y, "");
    assert [x, y][1..] == [y] && [y][1..] == [];
    if x != "" && y != "" {
      assert NonEmpty([x, y]) == [x, y];
      assert JoinWithSlash([x, y]) == x + "/" + JoinWithSlash([y]);
    } else if x != "" {
      assert NonEmpty([x, y]) == [x];
    } else if y != "" {
      assert NonEmpty([x, y]) == [y];
    } else {
      assert NonEmpty([x, y]) == [];
    }
  }

  /** `Join` of three elements, the last non-empty: the join of the first two
      extended by the last. */
  lemma JoinOfThree(x: string, y: string, z: string)
    requires z != ""
    ensures Join([x, y, z]) == if Join([x, y]) == "" then z else Join([x, y]) + "/" + z
  {
    NonEmptyOfShortLists(x, y, z);
    JoinOfTwo(x, y);
    assert [z][1..] == [];
    if x != "" && y != "" {
      assert NonEmpty([x, y, z]) == [x, y, z];
      assert Join([x, y]) == x + "/" + y;
      assert [x, y, z][1..] == [y, z] && [y, z][1..] == [z];
      assert JoinWithSlash([y, z]) == y + "/" + z;
      assert x + "/" + (y + "/" + z) == x + "/" + y + "/" + z;
    } else if x != "" {
      assert NonEmpty([x, y, z]) == [x, z];
      assert [x, z][1..] == [z];
      assert Join([x, y]) == x;
      assert Join([x, y, z]) == JoinWithSlash([x, z]) == x + "/" + JoinWithSlash([z]);
    } else if y != "" {
      assert NonEmpty([x, y, z]) == [y, z];
      assert [y, z][1..] == [z];
      assert Join([x, y]) == y;
      assert Join([x, y, z]) == JoinWithSlash([y, z]) == y + "/" + JoinWithSlash([z]);
    } else {
      assert NonEmpty([x, y, z]) == [z];
      assert Join([x, y]) == "";
    }
  }

  /** The battery topic is the value topic extended by a final `battery`
      segment; when the value topic is empty (empty prefix and address) it is
      `battery` alone. */
  lemma BatteryTopicExtendsValueTopic(prefix: string, address: string)
    ensures ValueTopic(prefix, address) != "" ==>
              BatteryTopic(prefix, address) == ValueTopic(prefix, address) + "/" + BatterySegment
    ensures ValueTopic(prefix, address) == "" ==> BatteryTopic(prefix, address) == BatterySegment
  {
    assert |DashedAddress(address)| == |address|;
  }

  /** `NonEmpty` on a two- and a three-element list, spelled out. */
  lemma NonEmptyOfShortLists(x: string, y: string, z: string)
    ensures NonEmpty([x, y]) == (if x == "" then [] else [x]) + (if y == "" then [] else [y])
    ensures NonEmpty([x, y, z]) == NonEmpty([x, y]) + (if z == "" then [] else [z])
  {
    assert [x, y, z][1..] == [y, z] && [y, z][1..] == [z] && [z][1..] == [];
    assert [x, y][1..] == [y] && [y][1..] == [];
    assert NonEmpty([z]) == (if z == "" then [] else [z]);
    assert NonEmpty([y]) == (if y == "" then [] else [y]);
    assert NonEmpty([y, z]) == (if y == "" then [] else [y]) + NonEmpty([z]);
  }

  /** Replacing `:` introduces no `/`. */
  lemma DashedAddressSlashFree(address: string)
    requires '/' !in address
    ensures '/' !in DashedAddress(address)
  {
    var d := DashedAddress(address);
    forall i | 0 <= i < |d| ensures d[i] != '/' {
      assert address[i] != '/';
    }
  }

  /** For a plain prefix and address, the topics consist of exactly the
      expected segments, the address segment being free of `:`. */
  lemma TopicSegments(prefix: string, address: string)
    requires IsSegment(prefix) && IsSegment(address)
    ensures Split(ValueTopic(prefix, address)) == [prefix, DashedAddress(address)]
    ensures Split(BatteryTopic(prefix, address)) == [prefix, DashedAddress(address), BatterySegment]
    ensures ':' !in DashedAddress(address)
  {
    var d := DashedAddress(address);
    DashedAddressSlashFree(address);
    NonEmptyOfShortLists(prefix, d, BatterySegment);
    assert NonEmpty([prefix, d]) == [prefix, d];
    assert NonEmpty([prefix, d, BatterySegment]) == [prefix, d, BatterySegment];
    SplitJoin([prefix, d]);
    SplitJoin([prefix, d, BatterySegment]);
  }
}

=== FILE: wrappers.dfy ===
/** Optional values. */
module Wrappers {

  /** Either no value or exactly one. */
  datatype Option<+T> = None | Some(value: T)
}
